=== FILE: README.md ===
# Tripwand itinerary core, modelled in Dafny

Tripwand's backend takes a travel request: a destination, a number of days
and an optional traveller profile. It renders the request into a Korean
prompt and asks a Gemma model for a day-by-day itinerary in JSON. It then
cuts the JSON object out of the model's answer, decodes it, and forces the
number of days to match the request. This project models that pipeline's
pure decision logic, plus the small helpers around it:

- the request guard;
- the listing pagination;
- the nil-pointer helpers;
- the e-mail-derived nickname and the OAuth find-or-create over an abstract
  user store;
- Bearer-token extraction and the two authentication middlewares;
- the parameter rules of the Gemma client (model whitelist, chat roles,
  max-token defaults).

Each modelled operation is a pure function (one is a method with a loop)
over immutable datatypes. Strings are `seq<char>`. Go's nil pointers are
`Option`. Go's `(value, error)` returns are `Result`. Most operations have a
partner lemma: an inverse (the `%d` parser, the group-size reader), an
invariant they keep (store integrity, day numbering), idempotence, or
agreement with a second definition. `ToTravelPlan`, `GenerationRequest`,
`NewGemmaClient`, `DefaultSettings`, `AvailableModels`, `TotalPages` and
`Wrap64` have no partner lemma; they are specified by their own contracts
only.

| file | module | models |
|---|---|---|
| `outcomes.dfy` | `Outcomes` | `Option` and `Result` |
| `strings.dfy` | `Strings` | Go's `strings.Index`, `LastIndex`, `Count`, `Split`, `Join` for a one-character needle; string concatenation with segment offsets |
| `decimal.dfy` | `Decimal` | `fmt`'s `%d` and its inverse parser |
| `models_travel.dfy` | `TravelModels` | `internal/models/travel.go` |
| `models_user.dfy` | `UserModels` | `internal/models/user.go` |
| `handlers_travel.dfy` | `TravelHandlers` | `internal/api/handlers/travel.go` |
| `middleware_auth.dfy` | `AuthMiddleware` | `internal/api/middleware/auth.go` |
| `llm_gemma.dfy` | `Gemma` | `internal/llm/gemma.go` |

Go indexes strings by byte. The model indexes them by character. Every needle
the code searches for (`{`, `}`, `@`, space) is ASCII, and UTF-8 never puts an
ASCII byte inside a multi-byte character. So both views cut a string into the
same pieces.

The generator and the JSON decoder are function parameters of
`GenerateItinerary`. Token validation is a parameter of the middlewares. The
database is an explicit `Store` value: rows in primary-key order,
auto-increment counters, soft-deleted users, and the unique indexes on
e-mail and on (provider, provider id).

Behaviours of the code a reader may not expect:

- The destination is not trimmed. `" "` is accepted.
- The group size is never range-checked. The struct tag
  `validate:"omitempty,min=1,max=50"` at internal/models/travel.go:15 asks for
  1..50, but body parsing never runs the validator, and the handler's own
  guard checks only destination and duration.
- A nil group size renders as `1명` and a group of one as `혼자`, so the two
  give different prompts (`NilAndSoloPromptsDiffer`).
- An empty decoded itinerary is not rejected. It is padded with zero-valued
  days numbered 0 (`EmptyItineraryPadsWithZeroDays`).
- Padded days are numbered from their position (`Day = i + 1`). They are not
  numbered from the last real day's own number.
- `Chat` writes a positive max-token override into the client's shared model
  handle, and it stays in force for later chats (`ChatOverridePersists`).
- `Generate` always builds a fresh `gemma-3-27b-it` handle, so `SwitchModel`
  and chat overrides never affect it (`GenerateIgnoresClientModel`).
- The fresh `Generate` handle sets no top-k.
- A new OAuth user with an empty name gets a nickname derived from the e-mail.
  This happens because gorm runs `BeforeCreate` on insert.
- An insert refused by a unique index still uses up an id, because the
  serial primary key takes its value from the sequence before the index is
  checked.

## Model

| member | source | states |
|---|---|---|
| Strings.Index | internal/api/handlers/travel.go:238 | the result is -1 exactly when the character is absent; otherwise it is a position holding the character with no earlier occurrence |
| Strings.LastIndex | internal/api/handlers/travel.go:244 | the result is -1 exactly when the character is absent; otherwise it is a position holding the character with no later occurrence |
| Strings.Split | internal/api/middleware/auth.go:65 | there is one piece more than there are separators, no piece contains the separator, and joining the pieces with the separator gives back the input |
| Decimal.FromInt | internal/models/travel.go:142 | `%d` output is non-empty and in canonical form: a negative number is `-` followed by digits with no leading zero; a non-negative one is all digits, with no leading zero unless it is `0` |
| Decimal.RoundTrip | internal/models/travel.go:142 | parsing the `%d` rendering of any integer gives that integer back |
| Decimal.Injective | internal/models/travel.go:142 | distinct integers render to distinct decimal texts |
| TravelModels.StringValueOr | internal/models/travel.go:127-132 | nil or empty gives the default; any other text is returned as is; with a non-empty default the result is never empty |
| TravelModels.GroupSizeText | internal/models/travel.go:134-143 | nil renders `1명`, 1 renders `혼자`, any other n renders its decimal followed by `명` |
| TravelModels.GroupSizeTextRoundTrip | internal/models/travel.go:134-143 | reading a group-size text back (`1명` as nil, `혼자` as 1, decimal + `명` otherwise) recovers the group size it was rendered from |
| TravelModels.GroupSizeTextInjective | internal/models/travel.go:134-143 | two group sizes, nil included, render alike only when they are equal; nil and 1 render differently |
| TravelModels.ResolvePromptData | internal/models/travel.go:79-86 | destination and duration are copied; an absent or empty age group, purpose or travel style becomes `연령대 미지정`, `일반적인 관광` or `균형잡힌 여행`, and a given non-empty one is kept; the group size becomes `1명` when absent, `혼자` for 1, and otherwise its decimal followed by `명`, a text that reads back as the group size |
| TravelModels.ToGemmaPrompt | internal/models/travel.go:88-121 | the prompt opens with the destination |
| TravelModels.PromptEmbedsFields | internal/models/travel.go:88-121 | destination, decimal duration, age group, group-size text, purpose and travel style each appear verbatim in the prompt, in that order, without overlapping |
| TravelModels.PromptEndsWithInstruction | internal/models/travel.go:92-120 | every prompt ends with the fixed JSON-format and pricing instruction |
| TravelModels.AbsentAndEmptyFieldsPromptAlike | internal/models/travel.go:79-86 | an absent age group, purpose or travel style and one holding `""` give the same prompt |
| TravelModels.NilAndSoloPromptsDiffer | internal/models/travel.go:134-141 | changing only the group size from nil to 1 changes the prompt |
| TravelHandlers.ExtractJSON | internal/api/handlers/travel.go:236-250 | no `{`, or no `}` after the first `{`, returns the text unchanged; otherwise the result is exactly the text from the first `{` to the last `}` (positions fixed by `Strings.Index` and `Strings.LastIndex`), so it begins with `{` and ends with `}`; it is never longer than the text |
| TravelHandlers.ExtractJSONIdempotent | internal/api/handlers/travel.go:236-250 | extracting from an extracted span returns it unchanged |
| TravelHandlers.ExtractJSONStripsProse | internal/api/handlers/travel.go:236-250 | a JSON object wrapped in prose (no `{` before it, no `}` after it) is recovered exactly |
| TravelHandlers.AdjustItineraryDays | internal/api/handlers/travel.go:253-277 | the result has exactly the target length: an equal-length input is returned unchanged; a longer input gives its prefix; a shorter input keeps its days and pads each position i with the last day's four activities numbered i+1; an empty input is padded with zero days |
| TravelHandlers.AdjustIdempotent | internal/api/handlers/travel.go:253-256 | reconciling an already reconciled itinerary changes nothing |
| TravelHandlers.AdjustKeepsNumbering | internal/api/handlers/travel.go:258-274 | a non-empty itinerary numbered 1..n comes out numbered 1..target |
| TravelHandlers.EmptyItineraryPadsWithZeroDays | internal/api/handlers/travel.go:264-276 | an empty itinerary becomes a run of zero-valued days, which is not numbered from one |
| TravelHandlers.ValidateRequest | internal/api/handlers/travel.go:52-64 | a request is accepted exactly when the destination is non-empty and 1 <= duration <= 30; an empty destination is reported first, then the duration |
| TravelHandlers.OptionalFieldsNotValidated | internal/api/handlers/travel.go:52-64 | acceptance depends only on destination and duration; the group size and other optional fields are ignored |
| TravelHandlers.Wrap64 | internal/api/handlers/travel.go:147 | the result is the 64-bit two's-complement value congruent to the input, and it equals the input whenever the input fits |
| TravelHandlers.ClampLimit | internal/api/handlers/travel.go:143-145 | the limit is always in 1..50; a requested limit in range is kept and any other becomes 10 |
| TravelHandlers.PaginationAsWritten | internal/api/handlers/travel.go:136-147 | a page below 1 becomes 1 and any other is kept, the limit is clamped, and the offset is (page-1)*limit wrapped to 64-bit two's complement |
| TravelHandlers.OffsetWrapsForHugePage | internal/api/handlers/travel.go:147 | page 9223372036854775807 with limit 10 gives offset -20 |
| TravelHandlers.Pagination | internal/api/handlers/travel.go:140-147 | page >= 1 (capped at `MaxPage`), 1 <= limit <= 50, and offset = (page-1)*limit, which is never negative and fits in 64 bits |
| TravelHandlers.OffsetBound | internal/api/handlers/travel.go:147 | for a page up to `MaxPage` and a clamped limit, (page-1)*limit is non-negative and fits in a signed 64-bit integer |
| TravelHandlers.PaginationAgreesBelowMaxPage | internal/api/handlers/travel.go:140-147 | for every page up to `MaxPage`, the capped pagination and the source's arithmetic agree exactly |
| TravelHandlers.TotalPages | internal/api/handlers/travel.go:177 | the result is ceil(total/limit): it is 0 exactly for no rows, its pages hold every row, and one page fewer would not |
| TravelHandlers.StringValue | internal/api/handlers/travel.go:280-285 | nil gives `""`; otherwise the pointed-to text |
| TravelHandlers.IntValue | internal/api/handlers/travel.go:287-292 | nil gives 0; otherwise the pointed-to number |
| TravelHandlers.PromptDefaultRefinesNilHelper | internal/models/travel.go:127-132 | the prompt's defaulting equals the handler's nil helper followed by replacing `""` with the default |
| TravelHandlers.ToTravelPlan | internal/api/handlers/travel.go:219-228 | the stored plan is anonymous, public and unviewed, and keeps the request's optional fields raw (`""`/0 when nil) with the serialised answer |
| TravelHandlers.GenerationRequest | internal/api/handlers/travel.go:72-76 | the generator receives the request's prompt with a 2000-token limit |
| TravelHandlers.GenerateItinerary | internal/api/handlers/travel.go:51-122 | an invalid request gets a bad-request answer with its message; for a valid one, a generator failure gets a service error carrying the failure, and a generated answer gets the malformed-answer message, the fixed error text `응답 형식이 올바르지 않습니다` and the raw text exactly when its extracted JSON does not decode; a success comes only from a decoded answer, and its data is that answer with the itinerary reconciled to `duration` days (the last day copied into the padding), with meta naming `gemma-3-27b-it` |
| TravelHandlers.InvalidRequestNeverGenerates | internal/api/handlers/travel.go:51-78 | for an invalid request the answer is the same whatever the generator and decoder do |
| TravelHandlers.SuccessReconcilesDecoded | internal/api/handlers/travel.go:104-109 | a success keeps the decoded cost, the cautions and the decoded days that fit, and numbers the days 1..duration when the decoded days were numbered from one |
| TravelHandlers.ProseWrappedTwoDayAnswerIsPaddedToThree | internal/api/handlers/travel.go:88-109 | a 3-day Busan request answered with a prose-wrapped 2-day itinerary yields 3 days numbered 1..3, the third with day 2's activities |
| UserModels.BeforeCreate | internal/models/user.go:79-87 | only the nickname can change; a non-empty nickname is kept; an empty one becomes the e-mail's text before its first `@` exactly when that `@` is at a position > 0, and otherwise stays empty |
| UserModels.FindUserById | internal/models/user.go:105 | the result is a live user with that id, or nothing when no live user has it |
| UserModels.FindUserByEmail | internal/models/user.go:115 | the result is a live user with that e-mail, or nothing when no live user has it |
| UserModels.FindAccount | internal/models/user.go:100 | the result is an account with that provider and provider id, or nothing when none exists |
| UserModels.CreateUser | internal/models/user.go:124-126 | an insert is refused with a duplicate-key error exactly when any user, deleted or not, holds the e-mail, and then only the id counter advances; otherwise the nickname hook runs, the next id is assigned, the user is active and is appended |
| UserModels.CreateAccount | internal/models/user.go:140-142 | an insert is refused with a duplicate-key error exactly when the (provider, provider id) pair exists, and then only the id counter advances; otherwise the next id is assigned and the account is appended |
| UserModels.LinkAccount | internal/models/user.go:132-144 | users are untouched, and the given user is returned exactly when the provider identity was not yet linked; on success the only change is the new account, with the next account id, appended, and the account counter advanced by one |
| UserModels.FindOrCreateUserByOAuth | internal/models/user.go:96-148 | rows are only ever appended, at most one user and one account per call, and a returned user is a live row of the store |
| UserModels.ExistingAccountReturnsLinkedUser | internal/models/user.go:100-109 | a known provider identity changes nothing and returns its linked live user, or an error exactly when that user is missing or deleted |
| UserModels.ExistingEmailLinksNewAccount | internal/models/user.go:112-144 | an unknown identity with a live user's e-mail creates no user and exactly one account, linked to that user and carrying provider, provider id, e-mail, name and picture; the user counter is unchanged and the account counter advances by one |
| UserModels.NewIdentityCreatesUserAndAccount | internal/models/user.go:117-144 | an unknown identity with an unused e-mail creates exactly one user (that e-mail, the name or else the derived nickname, that picture) and one account linked to it; each counter advances by exactly one |
| UserModels.DeletedEmailIsRefused | internal/models/user.go:115-126 | an unknown identity whose e-mail belongs only to a deleted user fails on the unique index; no row is written and only a user id is used up |
| UserModels.FindOrCreatePreservesValid | internal/models/user.go:96-148 | find-or-create keeps ids increasing, e-mails unique and provider identities unique |
| UserModels.CreateUserPreservesValid | internal/models/user.go:124-126 | inserting a user keeps the store's integrity |
| UserModels.CreateAccountPreservesValid | internal/models/user.go:140-142 | inserting an account keeps the store's integrity |
| AuthMiddleware.ExtractToken | internal/api/middleware/auth.go:63-69 | a header with exactly one space yields the text after it; any other header yields `""`; the token never contains a space |
| AuthMiddleware.ExtractTokenOfSchemeAndToken | internal/api/middleware/auth.go:63-69 | any space-free scheme word, a space and a space-free token yields that token: the scheme is not checked |
| AuthMiddleware.BasicSchemeAccepted | internal/api/middleware/auth.go:63-69 | `Basic x` yields `x` |
| AuthMiddleware.BareBearerYieldsNoToken | internal/api/middleware/auth.go:63-69 | `Bearer ` yields the empty token |
| AuthMiddleware.SecondSpaceYieldsNoToken | internal/api/middleware/auth.go:65-68 | a header with two spaces yields the empty token |
| AuthMiddleware.Authenticate | internal/api/middleware/auth.go:26-43 | a missing token aborts with 401 "No token provided"; a rejected token aborts with 401 "Invalid token"; otherwise it passes on with the claims' user id and e-mail set and `is_authenticated` unset |
| AuthMiddleware.OptionalAuthenticate | internal/api/middleware/auth.go:50-59 | it never aborts, and it sets the identity keys exactly when the token is non-empty and valid |
| AuthMiddleware.NoTokenRejectedBeforeValidation | internal/api/middleware/auth.go:26-31 | without a token, both middlewares decide the same whatever the validator says |
| AuthMiddleware.OptionalAgreesWithRequired | internal/api/middleware/auth.go:50-57 | the optional middleware authenticates exactly the requests the required one passes, with the same user id and e-mail |
| Gemma.DefaultSettings | internal/llm/gemma.go:73-76 | a fresh handle has 1000 max output tokens and top-k 40 |
| Gemma.NewGemmaClient | internal/llm/gemma.go:58-76 | an empty API key is an error with the fixed message; otherwise the client uses `gemma-3-27b-it` with the default settings |
| Gemma.AvailableModels | internal/llm/gemma.go:212-217 | the whitelist is exactly `gemma-3-1b-it`, `gemma-3-4b-it`, `gemma-3-12b-it`, `gemma-3-27b-it`, in that order, with no repeats |
| Gemma.SwitchModel | internal/llm/gemma.go:223-248 | an error (`invalid model name: ` + name) exactly when the name is not whitelisted; otherwise the handle is replaced by the named model with 1000 max output tokens and top-k 40 |
| Gemma.ChatRole | internal/llm/gemma.go:113-118 | `user` stays `user`; every other role becomes `model` |
| Gemma.ChatHistory | internal/llm/gemma.go:111-127 | one session entry per message, in order, each holding the message text, with role `user` exactly for user messages and `model` otherwise |
| Gemma.ChatHistoryStable | internal/llm/gemma.go:113-118 | mapping an already mapped history again changes nothing |
| Gemma.ChatSettings | internal/llm/gemma.go:133-135 | a positive max-token value overwrites the shared handle's setting; otherwise the client is unchanged |
| Gemma.ChatOverridePersists | internal/llm/gemma.go:133-135 | a chat override stays in force for a later chat that gives none |
| Gemma.GenerateSettings | internal/llm/gemma.go:164-177 | `Generate` uses `gemma-3-27b-it` without top-k, and uses the request's max tokens when positive, otherwise 1000 |
| Gemma.GenerateIgnoresClientModel | internal/llm/gemma.go:164 | the `Generate` settings do not depend on the client's current model handle |

## Left out

- HTTP plumbing is left out: fiber/gin contexts, body and query parsing, CORS,
  logging and the JSON framing of answers. Only the decisions, their
  messages and error texts are modelled, not the `success` flag. A body that fails to parse (the 400 at
  internal/api/handlers/travel.go:43-49) is not modelled. The request arrives
  already decoded.
- `json.Unmarshal` and `json.Marshal` are a foreign library. Decoding is the
  `decode` parameter, and the serialised plan is the `planJSON` argument.
- The genai library calls are foreign calls to an external service. This
  covers client creation, safety settings, `SendMessage`, `GenerateContent`,
  the "no content generated" checks and the joining of response parts.
  Generation is the `generate` parameter.
- Temperature and top-p are floating point and are not modelled. This includes
  the 0.7 the handler passes.
- The goroutine that saves a plan is fire-and-forget concurrency. Only the
  record it builds is modelled (`ToTravelPlan`), not the insert.
- The gorm queries of `GetSavedPlans` are database I/O: the public filter, the
  destination `ILIKE`, the ordering and the count. The row count is an input of
  `TotalPages`.
- JWT parsing and signing, the session lookup in `validateToken`,
  `GenerateToken` and `UpdateLastLogin` are left out. They are crypto, a
  foreign library and wall-clock time. Validation is a parameter of the
  middlewares.
- `GetPlanByID`'s view-count update, `getTravelStats`, the health check,
  `Close`, migrations and connection handling are left out. They are
  database-bound or hold no logic.
- Database failures other than a missing row and a unique-index refusal are
  not modelled, for example a lost connection.
- Timestamps, `LastLoginAt` and OAuth tokens are not modelled. They are clock
  values or fields this code never sets.
- Duration, group size and day numbers are unbounded integers. Go's 64-bit
  `int` never overflows on them in this code, because durations reach the
  padding only after the 1..30 check.
- AdjustItineraryDays: requires a non-negative target. The Go code panics
  on a negative one: slicing or `make` with a negative length.
- TotalPages: does not model 64-bit overflow of `total + limit - 1`. A row
  count near 2^63 cannot occur.

## Findings

| source | as written | input that shows it | evidently intended | confidence | as-written member | corrected member |
|---|---|---|---|---|---|---|
| internal/api/handlers/travel.go:147 | `offset := (page - 1) * limit` in 64-bit `int`, with `page` only bounded below | `page=9223372036854775807`, `limit=10` gives offset -20 | offset = (page-1)*limit, never negative | medium; not executed | TravelHandlers.OffsetWrapsForHugePage | TravelHandlers.Pagination |

=== FILE: decimal.dfy ===
/** Decimal rendering of integers as Go's `fmt` verb `%d` prints them, and
    the parser that undoes it. */
module Decimal {
  import opened Outcomes

  predicate IsDigit(ch: char) {
    '0' <= ch <= '9'
  }

  predicate AllDigits(s: string) {
    forall i :: 0 <= i < |s| ==> IsDigit(s[i])
  }

  function DigitChar(d: nat): (ch: char)
    requires d < 10
    ensures IsDigit(ch)
  {
    ('0' as int + d) as char
  }

  function DigitValue(ch: char): (d: nat)
    requires IsDigit(ch)
    ensures d < 10 && DigitChar(d) == ch
  {
    ch as int - '0' as int
  }

  /** The decimal digits of `n`, most significant first, without leading
      zeros ("0" for zero). */
  function Digits(n: nat): (s: string)
    ensures |s| >= 1 && AllDigits(s)
    ensures |s| > 1 ==> s[0] != '0'
    ensures n >= 1 ==> s[0] != '0'
  {
    if n < 10 then [DigitChar(n)]
    else Digits(n / 10) + [DigitChar(n % 10)]
  }

  /** `fmt.Sprintf("%d", n)`: an optional minus sign followed by the digits
      of `|n|`. */
  function FromInt(n: int): (s: string)
    ensures |s| >= 1
    ensures s[0] == '-' <==> n < 0
    ensures n >= 0 ==> AllDigits(s)
    ensures n < 0 ==> |s| >= 2 && AllDigits(s[1..]) && s[1] != '0'
    ensures n >= 0 && |s| > 1 ==> s[0] != '0'
  {
    if n < 0 then "-" + Digits(-n) else Digits(n)
  }

  /** The number a non-empty run of digits denotes. */
  function DigitsValue(s: string): nat
    requires AllDigits(s)
  {
    if |s| == 0 then 0
    else DigitsValue(s[..|s| - 1]) * 10 + DigitValue(s[|s| - 1])
  }

  /** Reads an optionally signed decimal numeral; `None` for anything else. */
  function Parse(s: string): (r: Option<int>)
    ensures r.Some? ==> |s| >= 1 && (r.value < 0 ==> s[0] == '-')
  {
    if |s| >= 2 && s[0] == '-' && AllDigits(s[1..]) then Some(-(DigitsValue(s[1..]) as int))
    else if |s| >= 1 && AllDigits(s) then Some(DigitsValue(s))
    else None
  }

  lemma {:induction false} DigitsRoundTrip(n: nat)
    ensures DigitsValue(Digits(n)) == n
  {
    if n >= 10 {
      var s := Digits(n);
      assert s[..|s| - 1] == Digits(n / 10);
      DigitsRoundTrip(n / 10);
    }
  }

  /** Parsing what `%d` printed gives the number back. */
  lemma RoundTrip(n: int)
    ensures Parse(FromInt(n)) == Some(n)
  {
    var s := FromInt(n);
    if n < 0 {
      var d := Digits(-n);
      assert s == "-" + d;
      assert s[1..] == d;
      DigitsRoundTrip(-n);
      assert Parse(s) == Some(-(DigitsValue(d) as int));
    } else {
      DigitsRoundTrip(n);
      assert s == Digits(n) && IsDigit(s[0]);
    }
  }

  /** Distinct integers print differently. */
  lemma Injective(a: int, b: int)
    requires FromInt(a) == FromInt(b)
    ensures a == b
  {
    RoundTrip(a);
    RoundTrip(b);
  }
}

=== FILE: handlers_travel.dfy ===
/** The decision logic of the travel handlers in `internal/api/handlers`:
    JSON-span extraction, day-count reconciliation, the request guard, the
    pagination arithmetic, the nil-pointer helpers and the itinerary pipeline
    with the generator and the JSON decoder as parameters. */
module TravelHandlers {
  import opened Outcomes
  import Strings
  import opened TravelModels
  import Gemma

  /** `extractJSON`: the text from the first `{` to the last `}` inclusive,
      or the whole text when there is no `{`, no `}`, or the last `}` does not
      come after the first `{`. */
  function ExtractJSON(text: string): (r: string)
    ensures Strings.Index(text, '{') == -1 ==> r == text
    ensures Strings.LastIndex(text, '}') <= Strings.Index(text, '{') ==> r == text
    ensures |r| <= |text|
    ensures 0 <= Strings.Index(text, '{') < Strings.LastIndex(text, '}') ==>
              r == text[Strings.Index(text, '{')..Strings.LastIndex(text, '}') + 1]
    ensures 0 <= Strings.Index(text, '{') < Strings.LastIndex(text, '}') ==>
              |r| >= 2 && r[0] == '{' && r[|r| - 1] == '}'
  {
    var start := Strings.Index(text, '{');
    if start == -1 then text
    else
      var end := Strings.LastIndex(text, '}');
      if end == -1 || end <= start then text
      else
        var r := text[start..end + 1];
        assert r[0] == text[start] && r[|r| - 1] == text[end];
        r
  }

  /** Extracting twice is extracting once: the extracted span begins with its
      first `{` and ends with its last `}`. */
  lemma ExtractJSONIdempotent(text: string)
    ensures ExtractJSON(ExtractJSON(text)) == ExtractJSON(text)
  {
    var r := ExtractJSON(text);
    if r != text {
      assert Strings.Index(r, '{') == 0 by {
        var i := Strings.Index(r, '{');
        assert i != -1 by { assert r[0] in r; }
      }
      assert Strings.LastIndex(r, '}') == |r| - 1 by {
        var j := Strings.LastIndex(r, '}');
        assert j != -1 by { assert r[|r| - 1] in r; }
      }
      assert r[0..|r|] == r;
    }
  }

  /** Prose before and after a JSON object is stripped, provided the prose
      before holds no `{` and the prose after holds no `}`. */
  lemma ExtractJSONStripsProse(prefix: string, json: string, suffix: string)
    requires '{' !in prefix && '}' !in suffix
    requires |json| >= 2 && json[0] == '{' && json[|json| - 1] == '}'
    ensures ExtractJSON(prefix + json + suffix) == json
  {
    var text := prefix + json + suffix;
    var s, e := |prefix|, |prefix| + |json| - 1;
    assert text[..s] == prefix;
    assert text[e + 1..] == suffix;
    assert text[s] == '{' && text[e] == '}';
    assert Strings.Index(text, '{') == s by {
      var i := Strings.Index(text, '{');
    }
    assert Strings.LastIndex(text, '}') == e by {
      var j := Strings.LastIndex(text, '}');
    }
    assert text[s..e + 1] == json;
  }

  /** The four activity periods of two days agree. */
  predicate SameActivities(a: DayItinerary, b: DayItinerary) {
    a.morning == b.morning && a.afternoon == b.afternoon && a.evening == b.evening && a.night == b.night
  }

  /** The day placed at position `i` when an itinerary is padded: a copy of
      the last day numbered `i + 1`, or the zero day when there is no last
      day. */
  function PaddingDay(itinerary: seq<DayItinerary>, i: nat): DayItinerary {
    if |itinerary| == 0 then ZeroDay else itinerary[|itinerary| - 1].(day := i + 1)
  }

  /** `adjustItineraryDays`: truncates an itinerary that is too long and pads
      one that is too short. A negative target makes the Go code panic, so it
      is excluded. */
  function AdjustItineraryDays(itinerary: seq<DayItinerary>, targetDays: int): (r: seq<DayItinerary>)
    requires targetDays >= 0
    ensures |r| == targetDays
    ensures |itinerary| == targetDays ==> r == itinerary
    ensures |itinerary| >= targetDays ==> r == itinerary[..targetDays]
    ensures |itinerary| < targetDays ==> r[..|itinerary|] == itinerary
    ensures |itinerary| > 0 ==> forall i :: |itinerary| <= i < targetDays ==>
              SameActivities(r[i], itinerary[|itinerary| - 1]) && r[i].day == i + 1
    ensures |itinerary| == 0 ==> forall i :: 0 <= i < targetDays ==> r[i] == ZeroDay
  {
    if |itinerary| == targetDays then itinerary
    else if |itinerary| > targetDays then itinerary[..targetDays]
    else
      var n, padding := |itinerary|, Padding(itinerary, targetDays);
      var r := itinerary + padding;
      assert r[..n] == itinerary;
      assert forall i :: n <= i < targetDays ==> r[i] == padding[i - n];
      r
  }

  /** The days appended to bring `itinerary` up to `targetDays` days. */
  function Padding(itinerary: seq<DayItinerary>, targetDays: int): (p: seq<DayItinerary>)
    requires |itinerary| <= targetDays
    ensures |p| == targetDays - |itinerary|
    ensures forall k :: 0 <= k < |p| ==> p[k] == PaddingDay(itinerary, |itinerary| + k)
  {
    seq(targetDays - |itinerary|, k requires 0 <= k < targetDays - |itinerary| => PaddingDay(itinerary, |itinerary| + k))
  }

  /** Reconciling an already reconciled itinerary changes nothing. */
  lemma AdjustIdempotent(itinerary: seq<DayItinerary>, targetDays: int)
    requires targetDays >= 0
    ensures AdjustItineraryDays(AdjustItineraryDays(itinerary, targetDays), targetDays)
            == AdjustItineraryDays(itinerary, targetDays)
  {
  }

  /** Days numbered 1, 2, ... in order. */
  predicate NumberedFromOne(days: seq<DayItinerary>) {
    forall i :: 0 <= i < |days| ==> days[i].day == i + 1
  }

  /** A non-empty itinerary numbered from one stays numbered from one after
      reconciliation, whatever the target. */
  lemma AdjustKeepsNumbering(itinerary: seq<DayItinerary>, targetDays: int)
    requires targetDays >= 0 && |itinerary| > 0
    requires NumberedFromOne(itinerary)
    ensures NumberedFromOne(AdjustItineraryDays(itinerary, targetDays))
  {
    var r := AdjustItineraryDays(itinerary, targetDays);
    forall i | 0 <= i < |r|
      ensures r[i].day == i + 1
    {
      if i < |itinerary| {
        if |itinerary| < targetDays {
          assert r[i] == r[..|itinerary|][i];
        }
      }
    }
  }

  /** An empty itinerary is padded with zero-valued days, numbered 0, so the
      numbering from one is lost as soon as a day is requested. */
  lemma EmptyItineraryPadsWithZeroDays(targetDays: int)
    requires targetDays >= 1
    ensures AdjustItineraryDays([], targetDays) == seq(targetDays, _ => ZeroDay)
    ensures !NumberedFromOne(AdjustItineraryDays([], targetDays))
  {
    var r := AdjustItineraryDays([], targetDays);
    assert r[0].day == 0;
  }

  const MaxDuration: int := 30

  datatype ValidationError = DestinationRequired | DurationOutOfRange

  function ValidationMessage(e: ValidationError): string {
    match e
    case DestinationRequired => "목적지는 필수입니다"
    case DurationOutOfRange => "여행 기간은 1일 이상 30일 이하여야 합니다"
  }

  /** The checks `GenerateItinerary` makes before building a prompt: the
      destination first, then the duration. Nothing is trimmed and the group
      size is not checked. */
  function ValidateRequest(req: TravelRequest): (r: Option<ValidationError>)
    ensures r.None? <==> req.destination != "" && 1 <= req.duration <= MaxDuration
    ensures r == Some(DestinationRequired) <==> req.destination == ""
    ensures r == Some(DurationOutOfRange) <==> req.destination != "" && (req.duration < 1 || req.duration > MaxDuration)
  {
    if req.destination == "" then Some(DestinationRequired)
    else if req.duration <= 0 || req.duration > MaxDuration then Some(DurationOutOfRange)
    else None
  }

  /** Only the destination and the duration decide acceptance: the optional
      fields, group size included, are never looked at. */
  lemma OptionalFieldsNotValidated(a: TravelRequest, b: TravelRequest)
    requires a.destination == b.destination && a.duration == b.duration
    ensures ValidateRequest(a) == ValidateRequest(b)
  {
  }

  const MinInt64: int := -0x8000_0000_0000_0000
  const MaxInt64: int := 0x7fff_ffff_ffff_ffff
  const TwoTo64: int := 0x1_0000_0000_0000_0000
  const DefaultPage: int := 1
  const DefaultLimit: int := 10
  const MaxLimit: int := 50

  predicate IsInt64(x: int) {
    MinInt64 <= x <= MaxInt64
  }

  /** Two's-complement wrap-around of Go's 64-bit `int` arithmetic. */
  function Wrap64(x: int): (r: int)
    ensures IsInt64(r)
    ensures (r - x) % TwoTo64 == 0
    ensures IsInt64(x) ==> r == x
  {
    (x - MinInt64) % TwoTo64 + MinInt64
  }

  /** The clamped page, the clamped limit and the row offset of a listing. */
  datatype Page = Page(page: int, limit: int, offset: int)

  /** The limit `GetSavedPlans` uses: the requested one when it is between 1
      and 50, otherwise 10. */
  function ClampLimit(limitQuery: int): (l: int)
    ensures 1 <= l <= MaxLimit
    ensures 1 <= limitQuery <= MaxLimit ==> l == limitQuery
    ensures !(1 <= limitQuery <= MaxLimit) ==> l == DefaultLimit
  {
    if limitQuery < 1 || limitQuery > MaxLimit then DefaultLimit else limitQuery
  }

  /** The page, limit and offset exactly as `GetSavedPlans` computes them, in
      64-bit arithmetic. */
  function PaginationAsWritten(pageQuery: int, limitQuery: int): (p: Page)
    requires IsInt64(pageQuery)
    ensures p.page >= 1 && 1 <= p.limit <= MaxLimit && IsInt64(p.offset)
    ensures p.page == (if pageQuery < 1 then DefaultPage else pageQuery)
    ensures p.limit == ClampLimit(limitQuery)
    ensures p.offset == Wrap64((p.page - 1) * p.limit)
  {
    var page := if pageQuery < 1 then DefaultPage else pageQuery;
    var limit := ClampLimit(limitQuery);
    Page(page, limit, Wrap64((page - 1) * limit))
  }

  /** The largest page whose offset still fits in 64 bits for every limit. */
  const MaxPage: int := MaxInt64 / MaxLimit + 1

  /** A huge page number makes the offset wrap around to a negative number. */
  lemma OffsetWrapsForHugePage()
    ensures PaginationAsWritten(MaxInt64, 10).offset == -20
  {
    assert (MaxInt64 - 1) * 10 - MinInt64 == 5 * TwoTo64 + (TwoTo64 / 2 - 20);
  }

  /** The pagination with the page also capped at `MaxPage`, so that the
      offset is the true product and is never negative. */
  function Pagination(pageQuery: int, limitQuery: int): (p: Page)
    ensures 1 <= p.page <= MaxPage && 1 <= p.limit <= MaxLimit
    ensures p.offset == (p.page - 1) * p.limit
    ensures 0 <= p.offset <= MaxInt64
    ensures pageQuery < 1 ==> p.page == DefaultPage
    ensures 1 <= pageQuery <= MaxPage ==> p.page == pageQuery
    ensures pageQuery > MaxPage ==> p.page == MaxPage
    ensures p.limit == ClampLimit(limitQuery)
  {
    var page := if pageQuery < 1 then DefaultPage else if pageQuery > MaxPage then MaxPage else pageQuery;
    var limit := ClampLimit(limitQuery);
    OffsetBound(page, limit);
    Page(page, limit, (page - 1) * limit)
  }

  lemma OffsetBound(page: int, limit: int)
    requires 1 <= page <= MaxPage && 1 <= limit <= MaxLimit
    ensures 0 <= (page - 1) * limit <= MaxInt64
  {
    var a := page - 1;
    MulMonotone(a, limit, MaxLimit);
    MulMonotone(MaxLimit, a, MaxPage - 1);
    assert (MaxPage - 1) * MaxLimit == 184467440737095516 * 50;
  }

  lemma MulMonotone(a: int, b: int, c: int)
    requires 0 <= a && 0 <= b <= c
    ensures 0 <= a * b <= a * c
  {
    assert a * c - a * b == a * (c - b);
  }

  /** Wherever the source's arithmetic does not overflow, the capped
      pagination gives the same page, limit and offset. */
  lemma PaginationAgreesBelowMaxPage(pageQuery: int, limitQuery: int)
    requires IsInt64(pageQuery) && pageQuery <= MaxPage
    ensures Pagination(pageQuery, limitQuery) == PaginationAsWritten(pageQuery, limitQuery)
  {
    var p := Pagination(pageQuery, limitQuery);
    assert Wrap64((p.page - 1) * p.limit) == p.offset;
  }

  /** `total_pages`: the number of pages of `limit` rows needed for `total`
      rows. Go's truncating division agrees with Dafny's on these
      non-negative operands. */
  function TotalPages(total: nat, limit: int): (r: int)
    requires limit >= 1
    ensures r >= 0
    ensures r == 0 <==> total == 0
    ensures total <= r * limit
    ensures r > 0 ==> (r - 1) * limit < total
  {
    var q := (total + limit - 1) / limit;
    assert q * limit + (total + limit - 1) % limit == total + limit - 1;
    assert (q - 1) * limit == q * limit - limit;
    q
  }

  /** `getStringValue` of the handler: the pointed-to text, or "" for nil. */
  function StringValue(p: Option<string>): (r: string)
    ensures p.Some? ==> r == p.value
    ensures p.None? ==> r == ""
  {
    p.GetOr("")
  }

  /** `getIntValue`: the pointed-to number, or 0 for nil. */
  function IntValue(p: Option<int>): (r: int)
    ensures p.Some? ==> r == p.value
    ensures p.None? ==> r == 0
  {
    p.GetOr(0)
  }

  /** The prompt's defaulting of an optional text is the handler's nil
      helper followed by replacing "" with the default. */
  lemma PromptDefaultRefinesNilHelper(p: Option<string>, default: string)
    ensures StringValueOr(p, default) == (if StringValue(p) == "" then default else StringValue(p))
  {
  }

  /** The record `saveTravelPlan` stores for a request and its serialised
      answer: anonymous, public, never viewed, optional fields stored raw. */
  function ToTravelPlan(req: TravelRequest, planJSON: string): (plan: TravelPlan)
    ensures plan.userId.None? && plan.isPublic && plan.viewCount == 0
    ensures plan.destination == req.destination && plan.duration == req.duration
    ensures plan.ageGroup == StringValue(req.ageGroup) && plan.groupSize == IntValue(req.groupSize)
    ensures plan.purpose == StringValue(req.purpose) && plan.travelType == StringValue(req.travelType)
    ensures plan.planData == planJSON
  {
    TravelPlan(None, req.destination, req.duration, StringValue(req.ageGroup), IntValue(req.groupSize),
               StringValue(req.purpose), StringValue(req.travelType), planJSON, true, 0)
  }

  const GenerationMaxTokens: Gemma.int32 := 2000
  const ServiceErrorMessage: string := "AI 서비스 호출 중 오류가 발생했습니다"
  const MalformedMessage: string := "AI 응답 처리 중 오류가 발생했습니다"
  const MalformedErrorText: string := "응답 형식이 올바르지 않습니다"

  /** The `meta` block of a successful answer. */
  datatype Meta = Meta(destination: string, duration: int, model: string)

  /** What `GenerateItinerary` answers. */
  datatype HandlerResult =
    | Success(data: TravelResponse, meta: Meta)
    | BadRequest(message: string)
    | ServiceError(message: string, error: string)
    | MalformedResponse(message: string, error: string, raw: string)

  /** The request handed to the generation client for a travel request. */
  function GenerationRequest(req: TravelRequest): (g: Gemma.GenerateRequest)
    ensures g.prompt == ToGemmaPrompt(req) && g.maxTokens == GenerationMaxTokens
  {
    Gemma.GenerateRequest(ToGemmaPrompt(req), GenerationMaxTokens)
  }

  /** `GenerateItinerary` after body parsing: validate, prompt, generate,
      extract, decode, reconcile. `generate` stands for the generation client
      and `decode` for `json.Unmarshal` into a `TravelResponse`. */
  function GenerateItinerary(req: TravelRequest,
                             generate: Gemma.GenerateRequest -> Result<string, string>,
                             decode: string -> Option<TravelResponse>): (r: HandlerResult)
    ensures r.BadRequest? <==> ValidateRequest(req).Some?
    ensures r.BadRequest? ==> r.message == ValidationMessage(ValidateRequest(req).value)
    ensures r.ServiceError? <==> ValidateRequest(req).None? && generate(GenerationRequest(req)).Err?
    ensures r.MalformedResponse? ==>
              && generate(GenerationRequest(req)) == Ok(r.raw)
              && r.message == MalformedMessage
              && r.error == MalformedErrorText
    ensures ValidateRequest(req).None? && generate(GenerationRequest(req)).Ok? ==>
              (r.MalformedResponse? <==> decode(ExtractJSON(generate(GenerationRequest(req)).value)).None?)
    ensures r.ServiceError? ==>
              r.message == ServiceErrorMessage && r.error == generate(GenerationRequest(req)).error
    ensures r.Success? ==>
              && generate(GenerationRequest(req)).Ok?
              && decode(ExtractJSON(generate(GenerationRequest(req)).value)).Some?
              && 1 <= req.duration <= MaxDuration
              && |r.data.itinerary| == req.duration
              && r.meta == Meta(req.destination, req.duration, Gemma.DefaultModelName)
    ensures r.Success? ==>
              var decoded := decode(ExtractJSON(generate(GenerationRequest(req)).value)).value;
              r.data == decoded.(itinerary := AdjustItineraryDays(decoded.itinerary, req.duration))
  {
    match ValidateRequest(req)
    case Some(e) => BadRequest(ValidationMessage(e))
    case None =>
      match generate(GenerationRequest(req))
      case Err(err) => ServiceError(ServiceErrorMessage, err)
      case Ok(raw) =>
        match decode(ExtractJSON(raw))
        case None => MalformedResponse(MalformedMessage, MalformedErrorText, raw)
        case Some(resp) =>
          var days := if |resp.itinerary| != req.duration
                      then AdjustItineraryDays(resp.itinerary, req.duration)
                      else resp.itinerary;
          assert days == AdjustItineraryDays(resp.itinerary, req.duration);
          Success(resp.(itinerary := days), Meta(req.destination, req.duration, Gemma.DefaultModelName))
  }

  /** An invalid request is answered without consulting the generator or the
      decoder. */
  lemma InvalidRequestNeverGenerates(req: TravelRequest,
                                     g1: Gemma.GenerateRequest -> Result<string, string>, d1: string -> Option<TravelResponse>,
                                     g2: Gemma.GenerateRequest -> Result<string, string>, d2: string -> Option<TravelResponse>)
    requires ValidateRequest(req).Some?
    ensures GenerateItinerary(req, g1, d1) == GenerateItinerary(req, g2, d2)
  {
  }

  /** A successful answer keeps the decoded cost and cautions, keeps the
      decoded days that fit, and numbers the days 1..duration when the
      decoded days were non-empty and numbered from one. */
  lemma SuccessReconcilesDecoded(req: TravelRequest,
                                 generate: Gemma.GenerateRequest -> Result<string, string>,
                                 decode: string -> Option<TravelResponse>)
    requires GenerateItinerary(req, generate, decode).Success?
    ensures var raw := generate(GenerationRequest(req)).value;
            var decoded := decode(ExtractJSON(raw)).value;
            var data := GenerateItinerary(req, generate, decode).data;
            && data.estimatedCost == decoded.estimatedCost
            && data.cautions == decoded.cautions
            && (forall i :: 0 <= i < |decoded.itinerary| && i < req.duration ==> data.itinerary[i] == decoded.itinerary[i])
            && (|decoded.itinerary| > 0 && NumberedFromOne(decoded.itinerary) ==> NumberedFromOne(data.itinerary))
  {
    var raw := generate(GenerationRequest(req)).value;
    var decoded := decode(ExtractJSON(raw)).value;
    if |decoded.itinerary| > 0 && NumberedFromOne(decoded.itinerary) {
      AdjustKeepsNumbering(decoded.itinerary, req.duration);
    }
    var data := GenerateItinerary(req, generate, decode).data;
    forall i | 0 <= i < |decoded.itinerary| && i < req.duration
      ensures data.itinerary[i] == decoded.itinerary[i]
    {
      if |decoded.itinerary| < req.duration {
        assert data.itinerary[..|decoded.itinerary|] == decoded.itinerary;
        assert data.itinerary[i] == data.itinerary[..|decoded.itinerary|][i];
      }
    }
  }

  /** A three-day request whose answer wraps a two-day itinerary in prose
      comes back with three days, the third a copy of the second numbered 3. */
  lemma ProseWrappedTwoDayAnswerIsPaddedToThree(
    req: TravelRequest, prefix: string, json: string, suffix: string, decoded: TravelResponse,
    generate: Gemma.GenerateRequest -> Result<string, string>, decode: string -> Option<TravelResponse>)
    requires req.destination == "부산" && req.duration == 3
    requires '{' !in prefix && '}' !in suffix
    requires |json| >= 2 && json[0] == '{' && json[|json| - 1] == '}'
    requires generate(GenerationRequest(req)) == Ok(prefix + json + suffix)
    requires decode(json) == Some(decoded)
    requires |decoded.itinerary| == 2 && NumberedFromOne(decoded.itinerary)
    ensures var r := GenerateItinerary(req, generate, decode);
            && r.Success?
            && |r.data.itinerary| == 3
            && NumberedFromOne(r.data.itinerary)
            && r.data.itinerary[..2] == decoded.itinerary
            && SameActivities(r.data.itinerary[2], decoded.itinerary[1])
  {
    ExtractJSONStripsProse(prefix, json, suffix);
    AdjustKeepsNumbering(decoded.itinerary, 3);
  }
}

=== FILE: llm_gemma.dfy ===
/** The parameter rules of the generation client in `internal/llm`: the model
    whitelist, the chat role mapping and the max-token defaults. The calls
    into the genai library themselves are not modelled; a client is reduced
    to its credential and the integer settings of its model handle. */
module Gemma {
  import opened Outcomes

  /** Go's `int32`, the type of every max-token field. */
  newtype int32 = x: int | -0x8000_0000 <= x < 0x8000_0000

  const DefaultModelName: string := "gemma-3-27b-it"
  const DefaultMaxOutputTokens: int32 := 1000
  const DefaultTopK: int := 40
  const MissingApiKeyMessage: string := "GOOGLE_AI_API_KEY environment variable is required"
  const InvalidModelPrefix: string := "invalid model name: "
  const UserRole: string := "user"
  const ModelRole: string := "model"

  /** The integer settings of a genai model handle; `topK` is `None` while
      unset. Temperature and top-p are floating point and are not modelled. */
  datatype ModelSettings = ModelSettings(name: string, maxOutputTokens: int32, topK: Option<int>)

  /** A client: the credential it was built with and its shared model handle. */
  datatype GemmaClient = GemmaClient(apiKey: string, model: ModelSettings)

  datatype ChatMessage = ChatMessage(role: string, content: string)

  /** One history entry as handed to the chat session. */
  datatype Content = Content(role: string, parts: seq<string>)

  datatype ChatRequest = ChatRequest(message: string, history: seq<ChatMessage>, maxTokens: int32)

  datatype GenerateRequest = GenerateRequest(prompt: string, maxTokens: int32)

  /** The settings every fresh or switched model handle starts with. */
  function DefaultSettings(name: string): (m: ModelSettings)
    ensures m.name == name && m.maxOutputTokens == 1000 && m.topK == Some(40)
  {
    ModelSettings(name, DefaultMaxOutputTokens, Some(DefaultTopK))
  }

  /** `NewGemmaClient`, with the environment variable passed in. */
  function NewGemmaClient(apiKey: string): (r: Result<GemmaClient, string>)
    ensures r.Err? <==> apiKey == ""
    ensures r.Err? ==> r.error == MissingApiKeyMessage
    ensures r.Ok? ==> r.value.apiKey == apiKey && r.value.model == DefaultSettings(DefaultModelName)
  {
    if apiKey == "" then Err(MissingApiKeyMessage)
    else Ok(GemmaClient(apiKey, DefaultSettings(DefaultModelName)))
  }

  /** `GetAvailableModels`: the four Gemma 3 instruction-tuned sizes. */
  function AvailableModels(): (models: seq<string>)
    ensures models == ["gemma-3-1b-it", "gemma-3-4b-it", "gemma-3-12b-it", DefaultModelName]
    ensures forall i, j :: 0 <= i < j < |models| ==> models[i] != models[j]
  {
    ["gemma-3-1b-it", "gemma-3-4b-it", "gemma-3-12b-it", "gemma-3-27b-it"]
  }

  /** `SwitchModel`: searches the whitelist and, on a hit, replaces the model
      handle by a fresh one with the default settings. */
  method SwitchModel(g: GemmaClient, modelName: string) returns (r: Result<GemmaClient, string>)
    ensures r.Err? <==> modelName !in AvailableModels()
    ensures r.Err? ==> r.error == InvalidModelPrefix + modelName
    ensures r.Ok? ==> r.value.apiKey == g.apiKey && r.value.model == DefaultSettings(modelName)
  {
    var available := AvailableModels();
    var isValid := false;
    var i := 0;
    while i < |available|
      invariant 0 <= i <= |available|
      invariant isValid <==> modelName in available[..i]
    {
      if available[i] == modelName {
        isValid := true;
        assert modelName in available[..i + 1];
        break;
      }
      assert available[..i + 1] == available[..i] + [available[i]];
      i := i + 1;
    }
    assert available[..|available|] == available;
    if !isValid {
      return Err(InvalidModelPrefix + modelName);
    }
    return Ok(g.(model := DefaultSettings(modelName)));
  }

  /** The role a history message is given in the chat session. */
  function ChatRole(role: string): (r: string)
    ensures r == UserRole <==> role == UserRole
    ensures r != UserRole ==> r == ModelRole
  {
    if role == UserRole then UserRole else ModelRole
  }

  /** The chat session history built from the request's history. */
  function ChatHistory(history: seq<ChatMessage>): (h: seq<Content>)
    ensures |h| == |history|
    ensures forall i :: 0 <= i < |h| ==> h[i].parts == [history[i].content]
    ensures forall i :: 0 <= i < |h| ==> (h[i].role == UserRole <==> history[i].role == UserRole)
    ensures forall i :: 0 <= i < |h| ==> h[i].role in {UserRole, ModelRole}
  {
    if |history| == 0 then []
    else [Content(ChatRole(history[0].role), [history[0].content])] + ChatHistory(history[1..])
  }

  /** Mapping roles twice changes nothing: the mapped history is a fixed
      point of the mapping. */
  lemma {:induction false} ChatHistoryStable(history: seq<ChatMessage>)
    ensures ChatHistory(Messages(ChatHistory(history))) == ChatHistory(history)
  {
    if |history| > 0 {
      var h := ChatHistory(history);
      assert Messages(h)[1..] == Messages(h[1..]);
      assert h[1..] == ChatHistory(history[1..]);
      ChatHistoryStable(history[1..]);
    }
  }

  /** Turns session entries back into messages (first part as content). */
  function Messages(h: seq<Content>): (ms: seq<ChatMessage>)
    ensures |ms| == |h|
  {
    if |h| == 0 then []
    else [ChatMessage(h[0].role, if |h[0].parts| > 0 then h[0].parts[0] else "")] + Messages(h[1..])
  }

  /** The client after `Chat` applied the request's max-token override: a
      positive value is written into the shared model handle. */
  function ChatSettings(g: GemmaClient, req: ChatRequest): (g': GemmaClient)
    ensures req.maxTokens > 0 ==> g'.model.maxOutputTokens == req.maxTokens
    ensures req.maxTokens <= 0 ==> g' == g
    ensures g'.apiKey == g.apiKey && g'.model.name == g.model.name && g'.model.topK == g.model.topK
  {
    if req.maxTokens > 0 then g.(model := g.model.(maxOutputTokens := req.maxTokens)) else g
  }

  /** A chat override stays in force for later chats that give none. */
  lemma ChatOverridePersists(g: GemmaClient, first: ChatRequest, later: ChatRequest)
    requires first.maxTokens > 0 && later.maxTokens <= 0
    ensures ChatSettings(ChatSettings(g, first), later).model.maxOutputTokens == first.maxTokens
  {
  }

  /** The settings of the temporary model `Generate` builds for one request;
      it sets no top-k. */
  function GenerateSettings(g: GemmaClient, req: GenerateRequest): (m: ModelSettings)
    ensures m.name == DefaultModelName && m.topK.None?
    ensures m.maxOutputTokens > 0
    ensures req.maxTokens > 0 ==> m.maxOutputTokens == req.maxTokens
    ensures req.maxTokens <= 0 ==> m.maxOutputTokens == DefaultMaxOutputTokens
  {
    ModelSettings(DefaultModelName, if req.maxTokens > 0 then req.maxTokens else DefaultMaxOutputTokens, None)
  }

  /** `Generate` does not see the client's model handle: neither a switched
      model nor a chat override changes what it uses. */
  lemma GenerateIgnoresClientModel(g1: GemmaClient, g2: GemmaClient, req: GenerateRequest)
    ensures GenerateSettings(g1, req) == GenerateSettings(g2, req)
  {
  }
}

=== FILE: middleware_auth.dfy ===
/** The token extraction and the accept/reject decisions of the two
    authentication middlewares in `internal/api/middleware`. Token validation
    (JWT parsing plus the session lookup) is a parameter. */
module AuthMiddleware {
  import opened Outcomes
  import Strings

  const Unauthorized: int := 401
  const NoTokenMessage: string := "No token provided"
  const InvalidTokenMessage: string := "Invalid token"

  /** What a valid token says about its bearer. */
  datatype Claims = Claims(userId: nat, email: string)

  /** The request-context keys a middleware sets: `user_id`, `email` and
      `is_authenticated`; `None` is a key left unset. */
  datatype Identity = Identity(userId: Option<nat>, email: Option<string>, isAuthenticated: Option<bool>)

  const Anonymous: Identity := Identity(None, None, None)

  /** The middleware either aborts the request with a status and message, or
      passes it on with the context it set. */
  datatype Decision = Abort(status: int, message: string) | Next(identity: Identity)

  /** `extractToken`: the text after the single space of the Authorization
      header; the empty string unless the header has exactly one space. The
      scheme word before the space is not looked at. */
  function ExtractToken(header: string): (t: string)
    ensures Strings.Count(header, ' ') != 1 ==> t == ""
    ensures Strings.Count(header, ' ') == 1 ==> t == header[Strings.Index(header, ' ') + 1..]
    ensures ' ' !in t
  {
    var parts := Strings.Split(header, ' ');
    if |parts| == 2 then
      var i := Strings.Index(header, ' ');
      assert parts[1..] == Strings.Split(header[i + 1..], ' ');
      assert parts[1] == Strings.Join(parts[1..], ' ');
      parts[1]
    else ""
  }

  /** A header made of a space-free scheme word, one space and a space-free
      token yields that token, whatever the scheme word is. */
  lemma ExtractTokenOfSchemeAndToken(scheme: string, token: string)
    requires ' ' !in scheme && ' ' !in token
    ensures ExtractToken(scheme + " " + token) == token
  {
    var h := scheme + " " + token;
    assert h[|scheme|] == ' ';
    assert h[..|scheme|] == scheme;
    assert h[|scheme| + 1..] == token;
    var i := Strings.Index(h, ' ');
    assert i == |scheme|;
    assert multiset(h) == multiset(scheme) + multiset([' ']) + multiset(token);
  }

  /** Any scheme word is accepted: "Basic x" yields "x". */
  lemma BasicSchemeAccepted()
    ensures ExtractToken("Basic x") == "x"
  {
    assert "Basic x" == "Basic" + " " + "x";
    ExtractTokenOfSchemeAndToken("Basic", "x");
  }

  /** "Bearer " followed by nothing yields the empty token. */
  lemma BareBearerYieldsNoToken()
    ensures ExtractToken("Bearer ") == ""
  {
    ExtractTokenOfSchemeAndToken("Bearer", "");
    assert "Bearer" + " " + "" == "Bearer ";
  }

  /** A header with a second space yields no token. */
  lemma SecondSpaceYieldsNoToken(scheme: string, a: string, b: string)
    ensures ExtractToken(scheme + " " + a + " " + b) == ""
  {
    var h := scheme + " " + a + " " + b;
    assert multiset(h) == multiset(scheme) + multiset([' ']) + multiset(a) + multiset([' ']) + multiset(b);
  }

  /** `AuthMiddleware`: rejects a missing token, then an invalid one, and
      otherwise records the bearer's id and email. */
  function Authenticate(header: string, validate: string -> Option<Claims>): (d: Decision)
    ensures ExtractToken(header) == "" ==> d == Abort(Unauthorized, NoTokenMessage)
    ensures (ExtractToken(header) != "" && validate(ExtractToken(header)).None?)
              ==> d == Abort(Unauthorized, InvalidTokenMessage)
    ensures d.Next? <==> ExtractToken(header) != "" && validate(ExtractToken(header)).Some?
    ensures d.Next? ==> var c := validate(ExtractToken(header)).value;
              d.identity == Identity(Some(c.userId), Some(c.email), None)
  {
    var token := ExtractToken(header);
    if token == "" then Abort(Unauthorized, NoTokenMessage)
    else match validate(token)
      case None => Abort(Unauthorized, InvalidTokenMessage)
      case Some(c) => Next(Identity(Some(c.userId), Some(c.email), None))
  }

  /** `OptionalAuthMiddleware`: never aborts; records the bearer's identity
      only for a present and valid token. */
  function OptionalAuthenticate(header: string, validate: string -> Option<Claims>): (d: Decision)
    ensures d.Next?
    ensures d.identity.isAuthenticated.Some? <==> ExtractToken(header) != "" && validate(ExtractToken(header)).Some?
    ensures d.identity.isAuthenticated.None? ==> d.identity == Anonymous
  {
    var token := ExtractToken(header);
    if token != "" then
      match validate(token)
      case Some(c) => Next(Identity(Some(c.userId), Some(c.email), Some(true)))
      case None => Next(Anonymous)
    else Next(Anonymous)
  }

  /** A header without a token is rejected before the validator is asked:
      the decision is the same whatever the validator would say. */
  lemma NoTokenRejectedBeforeValidation(header: string, v1: string -> Option<Claims>, v2: string -> Option<Claims>)
    requires ExtractToken(header) == ""
    ensures Authenticate(header, v1) == Authenticate(header, v2) == Abort(Unauthorized, NoTokenMessage)
    ensures OptionalAuthenticate(header, v1) == OptionalAuthenticate(header, v2) == Next(Anonymous)
  {
  }

  /** The optional middleware authenticates exactly the requests the
      required one lets through, with the same user id and email. */
  lemma OptionalAgreesWithRequired(header: string, validate: string -> Option<Claims>)
    ensures Authenticate(header, validate).Next?
            <==> OptionalAuthenticate(header, validate).identity.isAuthenticated == Some(true)
    ensures Authenticate(header, validate).Next? ==>
            && Authenticate(header, validate).identity.userId == OptionalAuthenticate(header, validate).identity.userId
            && Authenticate(header, validate).identity.email == OptionalAuthenticate(header, validate).identity.email
  {
  }
}

=== FILE: models_travel.dfy ===
/** The request, itinerary and stored-plan records of `internal/models`,
    and the deterministic rendering of a request into the generation prompt. */
module TravelModels {
  import opened Outcomes
  import Decimal
  import Strings

  /** What the front end sends. The optional fields are nil-able pointers in
      the source; `None` is nil. No bound is enforced on any field here. */
  datatype TravelRequest = TravelRequest(
    destination: string,
    duration: int,
    ageGroup: Option<string>,
    groupSize: Option<int>,
    purpose: Option<string>,
    travelType: Option<string>)

  /** One part of a day: a short label and a longer description. */
  datatype ActivityPeriod = ActivityPeriod(summary: string, detail: string)

  /** One day of an itinerary: its number and its four activity periods. */
  datatype DayItinerary = DayItinerary(
    day: int,
    morning: ActivityPeriod,
    afternoon: ActivityPeriod,
    evening: ActivityPeriod,
    night: ActivityPeriod)

  /** The Go zero value of `DayItinerary`: day 0 and empty activities. */
  const ZeroDay: DayItinerary :=
    DayItinerary(0, ActivityPeriod("", ""), ActivityPeriod("", ""),
                 ActivityPeriod("", ""), ActivityPeriod("", ""))

  /** The decoded answer of the generator. */
  datatype TravelResponse = TravelResponse(
    itinerary: seq<DayItinerary>,
    estimatedCost: int,
    cautions: seq<string>)

  /** A stored plan row. Identifiers and timestamps are assigned by the
      database and are not part of this model. */
  datatype TravelPlan = TravelPlan(
    userId: Option<nat>,
    destination: string,
    duration: int,
    ageGroup: string,
    groupSize: int,
    purpose: string,
    travelType: string,
    planData: string,
    isPublic: bool,
    viewCount: int)

  /** The request with every optional field resolved to text. */
  datatype PromptData = PromptData(
    destination: string,
    duration: int,
    ageGroup: string,
    groupSize: string,
    purpose: string,
    travelType: string)

  const AgeGroupDefault: string := "연령대 미지정"
  const PurposeDefault: string := "일반적인 관광"
  const TravelTypeDefault: string := "균형잡힌 여행"
  const NilGroupSizeText: string := "1명"
  const SoloGroupSizeText: string := "혼자"
  const PeopleSuffix: string := "명"

  /** The text of a nil-able string field, falling back to `default` when the
      pointer is nil or points to the empty string. */
  function StringValueOr(p: Option<string>, default: string): (r: string)
    ensures (p.None? || p.value == "") ==> r == default
    ensures p.Some? && p.value != "" ==> r == p.value
    ensures default != "" ==> r != ""
  {
    if p.Some? && p.value != "" then p.value else default
  }

  /** How many travellers the prompt mentions. */
  function GroupSizeText(g: Option<int>): (r: string)
    ensures g.None? ==> r == NilGroupSizeText
    ensures g == Some(1) ==> r == SoloGroupSizeText
    ensures g.Some? && g.value != 1 ==> r == Decimal.FromInt(g.value) + PeopleSuffix
  {
    match g
    case None => NilGroupSizeText
    case Some(n) => if n == 1 then SoloGroupSizeText else Decimal.FromInt(n) + PeopleSuffix
  }

  /** Reads back the group size a group-size text was rendered from;
      `None` for a text no group size renders to. */
  function ParseGroupSizeText(t: string): Option<Option<int>> {
    if t == SoloGroupSizeText then Some(Some(1))
    else if t == NilGroupSizeText then Some(None)
    else if |t| >= 1 && t[|t| - 1] == '명' then
      match Decimal.Parse(t[..|t| - 1])
      case Some(n) => Some(Some(n))
      case None => None
    else None
  }

  /** The group-size text determines the group size it was rendered from. */
  lemma GroupSizeTextRoundTrip(g: Option<int>)
    ensures ParseGroupSizeText(GroupSizeText(g)) == Some(g)
  {
    if g.Some? && g.value != 1 {
      var n := g.value;
      var t := GroupSizeText(g);
      assert t[..|t| - 1] == Decimal.FromInt(n);
      Decimal.RoundTrip(n);
      Decimal.RoundTrip(1);
      assert Decimal.FromInt(1) == "1";
      assert NilGroupSizeText[..1] == "1";
      assert SoloGroupSizeText[1] == '자';
      assert t[|t| - 1] == '명';
    }
  }

  /** No two group sizes render alike; in particular a nil group size and a
      group of one give different texts. */
  lemma GroupSizeTextInjective(a: Option<int>, b: Option<int>)
    requires GroupSizeText(a) == GroupSizeText(b)
    ensures a == b
  {
    GroupSizeTextRoundTrip(a);
    GroupSizeTextRoundTrip(b);
  }

  /** Resolves every optional field of the request to the text the prompt
      shows. Destination and duration are taken as they are; an absent or
      empty age group, purpose or travel style becomes its fixed default, and
      the group size becomes a text from which it can be read back. */
  function ResolvePromptData(req: TravelRequest): (d: PromptData)
    ensures d.destination == req.destination && d.duration == req.duration
    ensures d.ageGroup != "" && d.groupSize != "" && d.purpose != "" && d.travelType != ""
    ensures req.ageGroup.None? || req.ageGroup == Some("") ==> d.ageGroup == AgeGroupDefault
    ensures req.ageGroup.Some? && req.ageGroup != Some("") ==> d.ageGroup == req.ageGroup.value
    ensures req.purpose.None? || req.purpose == Some("") ==> d.purpose == PurposeDefault
    ensures req.purpose.Some? && req.purpose != Some("") ==> d.purpose == req.purpose.value
    ensures req.travelType.None? || req.travelType == Some("") ==> d.travelType == TravelTypeDefault
    ensures req.travelType.Some? && req.travelType != Some("") ==> d.travelType == req.travelType.value
    ensures req.groupSize.None? ==> d.groupSize == NilGroupSizeText
    ensures req.groupSize == Some(1) ==> d.groupSize == SoloGroupSizeText
    ensures req.groupSize.Some? && req.groupSize.value != 1 ==>
              d.groupSize == Decimal.FromInt(req.groupSize.value) + PeopleSuffix
    ensures ParseGroupSizeText(d.groupSize) == Some(req.groupSize)
  {
    GroupSizeTextRoundTrip(req.groupSize);
    PromptData(
      req.destination,
      req.duration,
      StringValueOr(req.ageGroup, AgeGroupDefault),
      GroupSizeText(req.groupSize),
      StringValueOr(req.purpose, PurposeDefault),
      StringValueOr(req.travelType, TravelTypeDefault))
  }

  /** The fixed closing of the prompt: the JSON output format the generator is
      asked to follow, then the request to price for one traveller in won. */
  const FormatInstruction: string :=
      "\"입니다.\n" +
      "\n" +
      "다음 JSON 형식으로 정확히 답변해주세요. 다른 설명이나 부가 텍스트 없이 오직 JSON만 반환하세요:\n" +
      "\n" +
      "{\n" +
      "  \"itinerary\": [\n" +
      "    {\n" +
      "      \"day\": 1,\n" +
      "      \"morning\": {\n" +
      "        \"summary\": \"아침 활동 요약\",\n" +
      "        \"detail\": \"아침 활동 상세 설명\"\n" +
      "      },\n" +
      "      \"afternoon\": {\n" +
      "        \"summary\": \"오후 활동 요약\", \n" +
      "        \"detail\": \"오후 활동 상세 설명\"\n" +
      "      },\n" +
      "      \"evening\": {\n" +
      "        \"summary\": \"저녁 활동 요약\",\n" +
      "        \"detail\": \"저녁 활동 상세 설명\"  \n" +
      "      },\n" +
      "      \"night\": {\n" +
      "        \"summary\": \"밤 활동 요약\",\n" +
      "        \"detail\": \"밤 활동 상세 설명\"\n" +
      "      }\n" +
      "    }\n" +
      "  ],\n" +
      "  \"estimated_cost\": 예상비용(숫자만),\n" +
      "  \"cautions\": [\"주의사항1\", \"주의사항2\"]\n" +
      "}\n" +
      "\n" +
      "각 일차별로 현실적이고 구체적인 일정을 만들어주세요. 예상 비용은 1인 기준 한국 원화로 계산해주세요."

  /** The six fields of the prompt in the order they appear. */
  function PromptFields(d: PromptData): (f: seq<string>)
    ensures |f| == 6
  {
    [d.destination, Decimal.FromInt(d.duration), d.ageGroup, d.groupSize, d.purpose, d.travelType]
  }

  /** The prompt as alternating fields and fixed template text; field `k` is
      segment `2 * k`. */
  function PromptSegments(d: PromptData): (segs: seq<string>)
    ensures |segs| == 12
    ensures forall k :: 0 <= k < 6 ==> segs[2 * k] == PromptFields(d)[k]
    ensures segs[11] == FormatInstruction
    ensures forall k :: 0 <= k < 5 ==> |segs[2 * k + 1]| > 0
  {
    [d.destination, "을(를) ",
     Decimal.FromInt(d.duration), "일 동안 여행할 예정입니다. \n나이대는 ",
     d.ageGroup, "이고, ",
     d.groupSize, "이서 여행합니다. \n여행 목적은 \"",
     d.purpose, "\"이며, 여행 스타일은 \"",
     d.travelType, FormatInstruction]
  }

  /** The prompt for fully resolved fields. */
  function RenderPrompt(d: PromptData): (p: string)
    ensures |d.destination| <= |p| && p[..|d.destination|] == d.destination
  {
    var segs := PromptSegments(d);
    Strings.ConcatEmbeds(segs, 0);
    Strings.Concat(segs)
  }

  /** `ToGemmaPrompt`: the prompt sent to the generator for `req`. */
  function ToGemmaPrompt(req: TravelRequest): (p: string)
    ensures |req.destination| <= |p| && p[..|req.destination|] == req.destination
  {
    RenderPrompt(ResolvePromptData(req))
  }

  /** Where field `k` starts in the prompt rendered from `d`. */
  function FieldStart(d: PromptData, k: nat): nat
    requires k < 6
  {
    Strings.SegmentStart(PromptSegments(d), 2 * k)
  }

  /** The prompt embeds the destination, the decimal duration, the age group,
      the group-size text, the purpose and the travel style, each verbatim, in
      that order and without overlapping. */
  lemma {:induction false} PromptEmbedsFields(req: TravelRequest, k: nat)
    requires k < 6
    ensures var d, p := ResolvePromptData(req), ToGemmaPrompt(req);
            var field := PromptFields(d)[k];
            && FieldStart(d, k) + |field| <= |p|
            && p[FieldStart(d, k)..FieldStart(d, k) + |field|] == field
            && (k < 5 ==> FieldStart(d, k) + |field| < FieldStart(d, k + 1))
  {
    var d := ResolvePromptData(req);
    RenderEmbedsFields(d, k);
  }

  lemma {:induction false} RenderEmbedsFields(d: PromptData, k: nat)
    requires k < 6
    ensures var p, field := RenderPrompt(d), PromptFields(d)[k];
            && FieldStart(d, k) + |field| <= |p|
            && p[FieldStart(d, k)..FieldStart(d, k) + |field|] == field
            && (k < 5 ==> FieldStart(d, k) + |field| < FieldStart(d, k + 1))
  {
    var segs := PromptSegments(d);
    assert RenderPrompt(d) == Strings.Concat(segs);
    assert FieldStart(d, k) == Strings.SegmentStart(segs, 2 * k);
    assert segs[2 * k] == PromptFields(d)[k];
    Strings.ConcatEmbeds(segs, 2 * k);
    if k < 5 {
      assert FieldStart(d, k + 1) == Strings.SegmentStart(segs, 2 * k + 2);
      Strings.ConcatEmbeds(segs, 2 * k + 1);
    }
  }

  /** The prompt closes with the fixed output-format instruction. */
  lemma PromptEndsWithInstruction(req: TravelRequest)
    ensures |ToGemmaPrompt(req)| >= |FormatInstruction|
    ensures ToGemmaPrompt(req)[|ToGemmaPrompt(req)| - |FormatInstruction|..] == FormatInstruction
  {
    var segs := PromptSegments(ResolvePromptData(req));
    Strings.ConcatLast(segs);
    assert segs[11] == FormatInstruction;
  }

  /** An absent age group, purpose or travel style and one holding the empty
      string give the same prompt: the generator cannot tell them apart. */
  lemma AbsentAndEmptyFieldsPromptAlike(req: TravelRequest)
    ensures ToGemmaPrompt(req.(ageGroup := None)) == ToGemmaPrompt(req.(ageGroup := Some("")))
    ensures ToGemmaPrompt(req.(purpose := None)) == ToGemmaPrompt(req.(purpose := Some("")))
    ensures ToGemmaPrompt(req.(travelType := None)) == ToGemmaPrompt(req.(travelType := Some("")))
  {
    assert ResolvePromptData(req.(ageGroup := None)) == ResolvePromptData(req.(ageGroup := Some("")));
    assert ResolvePromptData(req.(purpose := None)) == ResolvePromptData(req.(purpose := Some("")));
    assert ResolvePromptData(req.(travelType := None)) == ResolvePromptData(req.(travelType := Some("")));
  }

  /** Changing the group size from nil to 1 changes the prompt: nil renders
      as "1명" and 1 as "혼자". */
  lemma NilAndSoloPromptsDiffer(req: TravelRequest)
    requires req.groupSize.None?
    ensures ToGemmaPrompt(req) != ToGemmaPrompt(req.(groupSize := Some(1)))
  {
    var solo := req.(groupSize := Some(1));
    var sa := PromptSegments(ResolvePromptData(req));
    var sb := PromptSegments(ResolvePromptData(solo));
    assert sa[..6] == sb[..6];
    assert FieldStart(ResolvePromptData(req), 3) == FieldStart(ResolvePromptData(solo), 3);
    PromptEmbedsFields(req, 3);
    PromptEmbedsFields(solo, 3);
    assert PromptFields(ResolvePromptData(req))[3] == NilGroupSizeText;
    assert PromptFields(ResolvePromptData(solo))[3] == SoloGroupSizeText;
  }
}

=== FILE: models_user.dfy ===
/** Users, OAuth accounts and the OAuth find-or-create of
    `internal/models/user.go`, over an abstract store standing for the two
    tables. Rows are kept in primary-key order; users are soft-deleted (the
    row stays and still holds its unique e-mail). */
module UserModels {
  import opened Outcomes
  import Strings

  datatype User = User(
    id: nat,
    email: string,
    nickname: string,
    profileImageURL: string,
    isActive: bool,
    deleted: bool)

  datatype OAuthAccount = OAuthAccount(
    id: nat,
    userId: nat,
    provider: string,
    providerId: string,
    email: string,
    name: string,
    picture: string)

  /** The `users` and `oauth_accounts` tables and their auto-increment
      counters. */
  datatype Store = Store(
    users: seq<User>,
    accounts: seq<OAuthAccount>,
    nextUserId: nat,
    nextAccountId: nat)

  /** The two database errors this code can meet: a lookup that finds no row,
      and an insert refused by a unique index. */
  datatype DbError = RecordNotFound | DuplicateKey

  /** The result of a store operation: the store afterwards and the value or
      error returned. A failed call may still have changed the store. */
  datatype Outcome<T> = Outcome(store: Store, result: Result<T, DbError>)

  /** The integrity the database keeps: ids strictly increase in row order
      and stay below their counter, e-mails are unique among all users
      (deleted ones included), and (provider, provider id) is unique among
      accounts. */
  ghost predicate Valid(st: Store) {
    && (forall i :: 0 <= i < |st.users| ==> st.users[i].id < st.nextUserId)
    && (forall i, j :: 0 <= i < j < |st.users| ==> st.users[i].id < st.users[j].id)
    && (forall i, j :: 0 <= i < j < |st.users| ==> st.users[i].email != st.users[j].email)
    && (forall i :: 0 <= i < |st.accounts| ==> st.accounts[i].id < st.nextAccountId)
    && (forall i, j :: 0 <= i < j < |st.accounts| ==> st.accounts[i].id < st.accounts[j].id)
    && (forall i, j :: 0 <= i < j < |st.accounts| ==> !SameKey(st.accounts[i], st.accounts[j]))
  }

  predicate SameKey(a: OAuthAccount, b: OAuthAccount) {
    a.provider == b.provider && a.providerId == b.providerId
  }

  /** `User.BeforeCreate`: an empty nickname is replaced by the part of the
      e-mail before its first `@`, when that part is non-empty. */
  function BeforeCreate(u: User): (v: User)
    ensures v == u.(nickname := v.nickname)
    ensures u.nickname != "" ==> v == u
    ensures u.nickname == "" ==> (v.nickname == "" <==> Strings.Index(u.email, '@') <= 0)
    ensures u.nickname == "" && v.nickname != "" ==> v.nickname + "@" <= u.email && '@' !in v.nickname
  {
    if u.nickname == "" && u.email != "" then
      var idx := Strings.Index(u.email, '@');
      if idx > 0 then
        assert u.email[..idx] + "@" == u.email[..idx + 1];
        u.(nickname := u.email[..idx])
      else u
    else u
  }

  /** The first user row, in primary-key order, that is live and has `id`. */
  function FindUserById(users: seq<User>, id: nat): (r: Option<User>)
    ensures r.Some? ==> r.value in users && r.value.id == id && !r.value.deleted
    ensures r.None? ==> forall u :: u in users ==> u.id != id || u.deleted
  {
    if |users| == 0 then None
    else if users[0].id == id && !users[0].deleted then Some(users[0])
    else FindUserById(users[1..], id)
  }

  /** The first live user row, in primary-key order, with e-mail `email`. */
  function FindUserByEmail(users: seq<User>, email: string): (r: Option<User>)
    ensures r.Some? ==> r.value in users && r.value.email == email && !r.value.deleted
    ensures r.None? ==> forall u :: u in users ==> u.email != email || u.deleted
  {
    if |users| == 0 then None
    else if users[0].email == email && !users[0].deleted then Some(users[0])
    else FindUserByEmail(users[1..], email)
  }

  /** The first account row with the given provider and provider id. */
  function FindAccount(accounts: seq<OAuthAccount>, provider: string, providerId: string): (r: Option<OAuthAccount>)
    ensures r.Some? ==> r.value in accounts && r.value.provider == provider && r.value.providerId == providerId
    ensures r.None? ==> forall a :: a in accounts ==> a.provider != provider || a.providerId != providerId
  {
    if |accounts| == 0 then None
    else if accounts[0].provider == provider && accounts[0].providerId == providerId then Some(accounts[0])
    else FindAccount(accounts[1..], provider, providerId)
  }

  /** Whether any user row, deleted or not, holds `email`. */
  predicate EmailTaken(users: seq<User>, email: string) {
    exists u :: u in users && u.email == email
  }

  /** `db.Create(&user)`: runs `BeforeCreate`, takes the next id, lets the
      column default make the user active, and is refused when the e-mail is
      already in the unique index. The id comes from the table's sequence
      before the index is consulted, so a refused insert still uses it up. */
  function CreateUser(st: Store, u: User): (o: Outcome<User>)
    ensures o.result.Err? <==> EmailTaken(st.users, u.email)
    ensures o.result.Err? ==> o.store == st.(nextUserId := st.nextUserId + 1) && o.result.error == DuplicateKey
    ensures o.result.Ok? ==>
      && o.result.value == BeforeCreate(u).(id := st.nextUserId, isActive := true, deleted := false)
      && o.store == st.(users := st.users + [o.result.value], nextUserId := st.nextUserId + 1)
  {
    if EmailTaken(st.users, u.email) then Outcome(st.(nextUserId := st.nextUserId + 1), Err(DuplicateKey))
    else
      var row := BeforeCreate(u).(id := st.nextUserId, isActive := true, deleted := false);
      Outcome(st.(users := st.users + [row], nextUserId := st.nextUserId + 1), Ok(row))
  }

  /** `db.Create(&oauthAccount)`: takes the next id and is refused when the
      (provider, provider id) pair is already in the unique index; as for
      users, a refused insert still uses up its id. */
  function CreateAccount(st: Store, a: OAuthAccount): (o: Outcome<OAuthAccount>)
    ensures o.result.Err? <==> FindAccount(st.accounts, a.provider, a.providerId).Some?
    ensures o.result.Err? ==> o.store == st.(nextAccountId := st.nextAccountId + 1) && o.result.error == DuplicateKey
    ensures o.result.Ok? ==>
      && o.result.value == a.(id := st.nextAccountId)
      && o.store == st.(accounts := st.accounts + [o.result.value], nextAccountId := st.nextAccountId + 1)
  {
    if FindAccount(st.accounts, a.provider, a.providerId).Some? then
      Outcome(st.(nextAccountId := st.nextAccountId + 1), Err(DuplicateKey))
    else
      var row := a.(id := st.nextAccountId);
      Outcome(st.(accounts := st.accounts + [row], nextAccountId := st.nextAccountId + 1), Ok(row))
  }

  /** The account `FindOrCreateUserByOAuth` links to `user`. */
  function NewAccount(user: User, provider: string, providerId: string, email: string, name: string, picture: string): OAuthAccount {
    OAuthAccount(0, user.id, provider, providerId, email, name, picture)
  }

  /** Links a fresh account for the given provider identity to `user`. */
  function LinkAccount(st: Store, user: User, provider: string, providerId: string,
                       email: string, name: string, picture: string): (o: Outcome<User>)
    ensures o.store.users == st.users
    ensures o.result.Ok? ==> o.result == Ok(user)
    ensures o.result.Ok? ==>
              o.store == st.(accounts := st.accounts + [NewAccount(user, provider, providerId, email, name, picture).(id := st.nextAccountId)],
                             nextAccountId := st.nextAccountId + 1)
    ensures o.result.Ok? <==> FindAccount(st.accounts, provider, providerId).None?
  {
    var created := CreateAccount(st, NewAccount(user, provider, providerId, email, name, picture));
    match created.result
    case Ok(_) => Outcome(created.store, Ok(user))
    case Err(e) => Outcome(created.store, Err(e))
  }

  /** `FindOrCreateUserByOAuth`: returns the user linked to the provider
      identity; failing that, links a new account to the live user with the
      same e-mail; failing that, creates the user and then links the
      account. */
  function FindOrCreateUserByOAuth(st: Store, provider: string, providerId: string,
                                   email: string, name: string, picture: string): (o: Outcome<User>)
    ensures st.users <= o.store.users && |o.store.users| <= |st.users| + 1
    ensures st.accounts <= o.store.accounts && |o.store.accounts| <= |st.accounts| + 1
    ensures o.result.Ok? ==> o.result.value in o.store.users && !o.result.value.deleted
  {
    match FindAccount(st.accounts, provider, providerId)
    case Some(account) =>
      (match FindUserById(st.users, account.userId)
       case Some(user) => Outcome(st, Ok(user))
       case None => Outcome(st, Err(RecordNotFound)))
    case None =>
      match FindUserByEmail(st.users, email)
      case Some(user) => LinkAccount(st, user, provider, providerId, email, name, picture)
      case None =>
        var made := CreateUser(st, User(0, email, name, picture, false, false));
        match made.result
        case Err(e) => Outcome(made.store, Err(e))
        case Ok(user) => LinkAccount(made.store, user, provider, providerId, email, name, picture)
  }

  /** A known provider identity returns its linked live user and changes
      nothing; a link to a missing or deleted user is an error. */
  lemma ExistingAccountReturnsLinkedUser(st: Store, provider: string, providerId: string,
                                         email: string, name: string, picture: string)
    requires FindAccount(st.accounts, provider, providerId).Some?
    ensures FindOrCreateUserByOAuth(st, provider, providerId, email, name, picture).store == st
    ensures var o := FindOrCreateUserByOAuth(st, provider, providerId, email, name, picture);
            var account := FindAccount(st.accounts, provider, providerId).value;
            && (o.result.Ok? ==> o.result.value in st.users && o.result.value.id == account.userId && !o.result.value.deleted)
            && (o.result.Err? <==> forall u :: u in st.users ==> u.id != account.userId || u.deleted)
  {
  }

  /** An unknown provider identity with the e-mail of a live user creates no
      user and exactly one account, linked to that user and carrying the
      given provider data. */
  lemma ExistingEmailLinksNewAccount(st: Store, provider: string, providerId: string,
                                     email: string, name: string, picture: string)
    requires FindAccount(st.accounts, provider, providerId).None?
    requires FindUserByEmail(st.users, email).Some?
    ensures var o := FindOrCreateUserByOAuth(st, provider, providerId, email, name, picture);
            var user := FindUserByEmail(st.users, email).value;
            && o.result == Ok(user)
            && o.store.users == st.users
            && o.store.accounts == st.accounts + [OAuthAccount(st.nextAccountId, user.id, provider, providerId, email, name, picture)]
            && o.store.nextUserId == st.nextUserId && o.store.nextAccountId == st.nextAccountId + 1
  {
  }

  /** An unknown identity with an unused e-mail creates exactly one user
      (e-mail, name as nickname or else the e-mail's local part, picture) and
      one account linked to it. */
  lemma NewIdentityCreatesUserAndAccount(st: Store, provider: string, providerId: string,
                                         email: string, name: string, picture: string)
    requires FindAccount(st.accounts, provider, providerId).None?
    requires !EmailTaken(st.users, email)
    ensures var o := FindOrCreateUserByOAuth(st, provider, providerId, email, name, picture);
            var user := BeforeCreate(User(st.nextUserId, email, name, picture, true, false));
            && o.result == Ok(user)
            && o.store.users == st.users + [user]
            && o.store.accounts == st.accounts + [OAuthAccount(st.nextAccountId, user.id, provider, providerId, email, name, picture)]
            && o.store.nextUserId == st.nextUserId + 1 && o.store.nextAccountId == st.nextAccountId + 1
  {
    assert FindUserByEmail(st.users, email).None?;
  }

  /** An unknown identity whose e-mail belongs only to a deleted user is
      refused by the unique index: no row is written, only a user id is
      used up. */
  lemma DeletedEmailIsRefused(st: Store, provider: string, providerId: string,
                              email: string, name: string, picture: string)
    requires FindAccount(st.accounts, provider, providerId).None?
    requires FindUserByEmail(st.users, email).None? && EmailTaken(st.users, email)
    ensures FindOrCreateUserByOAuth(st, provider, providerId, email, name, picture)
              == Outcome(st.(nextUserId := st.nextUserId + 1), Err(DuplicateKey))
  {
  }

  /** Find-or-create keeps the store's integrity. */
  lemma FindOrCreatePreservesValid(st: Store, provider: string, providerId: string,
                                   email: string, name: string, picture: string)
    requires Valid(st)
    ensures Valid(FindOrCreateUserByOAuth(st, provider, providerId, email, name, picture).store)
  {
    if FindAccount(st.accounts, provider, providerId).None? {
      if FindUserByEmail(st.users, email).Some? {
        var user := FindUserByEmail(st.users, email).value;
        CreateAccountPreservesValid(st, NewAccount(user, provider, providerId, email, name, picture));
      } else {
        var made := CreateUser(st, User(0, email, name, picture, false, false));
        CreateUserPreservesValid(st, User(0, email, name, picture, false, false));
        if made.result.Ok? {
          var user := made.result.value;
          CreateAccountPreservesValid(made.store, NewAccount(user, provider, providerId, email, name, picture));
        }
      }
    }
  }

  lemma CreateUserPreservesValid(st: Store, u: User)
    requires Valid(st)
    ensures Valid(CreateUser(st, u).store)
  {
    var o := CreateUser(st, u);
    if o.result.Ok? {
      var users := o.store.users;
      forall i, j | 0 <= i < j < |users|
        ensures users[i].email != users[j].email
      {
        if j == |users| - 1 {
          assert users[i] in st.users;
        }
      }
    }
  }

  lemma CreateAccountPreservesValid(st: Store, a: OAuthAccount)
    requires Valid(st)
    ensures Valid(CreateAccount(st, a).store)
  {
    var o := CreateAccount(st, a);
    if o.result.Ok? {
      var accounts := o.store.accounts;
      forall i, j | 0 <= i < j < |accounts|
        ensures !SameKey(accounts[i], accounts[j])
      {
        if j == |accounts| - 1 {
          assert accounts[i] in st.accounts;
        }
      }
    }
  }
}

=== FILE: outcomes.dfy ===
/** Optional values and error-carrying results shared by every module.

    `Option` stands for the Go nil-able pointers (`*string`, `*int`) of the
    request structures; `Result` stands for Go's `(value, error)` returns. */
module Outcomes {

  /** An optional value: `None` is a nil pointer, `Some(v)` a pointer to `v`. */
  datatype Option<+T> = None | Some(value: T) {

    /** The pointed-to value, or `default` when the pointer is nil. */
    function GetOr(default: T): T {
      match this
      case Some(v) => v
      case None => default
    }
  }

  /** A value, or the error that the Go code would have returned instead. */
  datatype Result<+T, +E> = Ok(value: T) | Err(error: E)
}

=== FILE: strings.dfy ===
/** The parts of Go's `strings` package that the server relies on, for a
    one-character separator or needle.

    Go indexes strings by byte; here strings are sequences of characters.
    Every needle used by the server (`{`, `}`, `@`, ` `) is ASCII, and UTF-8
    never places an ASCII byte inside a multi-byte character, so both views
    cut a string into the same pieces. */
module Strings {

  /** `strings.Index(s, string(c))`: the first position of `c`, or -1. */
  function Index(s: string, c: char): (r: int)
    ensures -1 <= r < |s|
    ensures r == -1 <==> c !in s
    ensures r >= 0 ==> s[r] == c && c !in s[..r]
  {
    if |s| == 0 then -1
    else if s[0] == c then 0
    else
      var k := Index(s[1..], c);
      if k == -1 then -1
      else
        assert s[..k + 1] == [s[0]] + s[1..][..k];
        k + 1
  }

  /** `strings.LastIndex(s, string(c))`: the last position of `c`, or -1. */
  function LastIndex(s: string, c: char): (r: int)
    ensures -1 <= r < |s|
    ensures r == -1 <==> c !in s
    ensures r >= 0 ==> s[r] == c && c !in s[r + 1..]
  {
    if |s| == 0 then -1
    else if s[|s| - 1] == c then |s| - 1
    else
      var k := LastIndex(s[..|s| - 1], c);
      LastIndexStep(s[..|s| - 1], s[|s| - 1], c, k);
      assert s == s[..|s| - 1] + [s[|s| - 1]];
      k
  }

  /** Appending a character other than `c` changes neither whether `c`
      occurs nor where it last occurs. */
  lemma LastIndexStep(t: string, last: char, c: char, k: int)
    requires last != c
    requires -1 <= k < |t|
    requires k == -1 <==> c !in t
    requires k >= 0 ==> t[k] == c && c !in t[k + 1..]
    ensures k == -1 <==> c !in t + [last]
    ensures k >= 0 ==> (t + [last])[k] == c && c !in (t + [last])[k + 1..]
  {
    if k >= 0 {
      assert (t + [last])[k + 1..] == t[k + 1..] + [last];
    }
  }

  /** `strings.Count(s, string(c))`: how many times `c` occurs in `s`. */
  function Count(s: string, c: char): nat {
    multiset(s)[c]
  }

  /** Glues `parts` back together with `c` between neighbours
      (`strings.Join(parts, string(c))`). */
  function Join(parts: seq<string>, c: char): string {
    if |parts| == 0 then ""
    else if |parts| == 1 then parts[0]
    else parts[0] + [c] + Join(parts[1..], c)
  }

  /** `strings.Split(s, string(c))`: the pieces of `s` between occurrences of
      `c`. There is always one piece more than there are separators, no piece
      contains the separator, and joining the pieces gives `s` back. */
  function Split(s: string, c: char): (parts: seq<string>)
    ensures |parts| == Count(s, c) + 1
    ensures forall k :: 0 <= k < |parts| ==> c !in parts[k]
    ensures Join(parts, c) == s
    decreases |s|
  {
    var i := Index(s, c);
    if i == -1 then
      assert multiset(s)[c] == 0;
      [s]
    else
      var rest := Split(s[i + 1..], c);
      CountAround(s, c, i);
      var parts := [s[..i]] + rest;
      assert parts[1..] == rest;
      assert Join(parts, c) == s[..i] + [c] + Join(rest, c);
      assert s == s[..i] + [c] + s[i + 1..];
      assert forall k :: 1 <= k < |parts| ==> parts[k] == rest[k - 1];
      parts
  }

  /** Cutting `s` at the first occurrence of `c` leaves every other
      occurrence in the tail. */
  lemma CountAround(s: string, c: char, i: nat)
    requires i < |s| && s[i] == c && c !in s[..i]
    ensures Count(s, c) == Count(s[i + 1..], c) + 1
  {
    assert s == s[..i] + [c] + s[i + 1..];
    assert multiset(s) == multiset(s[..i]) + multiset([c]) + multiset(s[i + 1..]);
    assert multiset(s[..i])[c] == 0;
  }

  /** The concatenation of a sequence of strings, left to right. */
  function Concat(segs: seq<string>): string {
    if |segs| == 0 then "" else segs[0] + Concat(segs[1..])
  }

  /** Concatenation distributes over appending sequences of strings. */
  lemma {:induction false} ConcatAppend(a: seq<string>, b: seq<string>)
    ensures Concat(a + b) == Concat(a) + Concat(b)
    decreases |a|
  {
    if |a| == 0 {
      assert a + b == b;
    } else {
      assert (a + b)[1..] == a[1..] + b;
      ConcatAppend(a[1..], b);
    }
  }

  /** The concatenation ends with the last segment. */
  lemma ConcatLast(segs: seq<string>)
    requires |segs| > 0
    ensures Concat(segs) == Concat(segs[..|segs| - 1]) + segs[|segs| - 1]
  {
    var init, last := segs[..|segs| - 1], segs[|segs| - 1];
    assert segs == init + [last];
    ConcatAppend(init, [last]);
    assert [last][1..] == [];
    assert Concat([last]) == last;
  }

  /** The position at which segment `k` starts inside `Concat(segs)`. */
  function SegmentStart(segs: seq<string>, k: nat): nat
    requires k <= |segs|
  {
    |Concat(segs[..k])|
  }

  /** Segment `k` sits unchanged in the concatenation, starting at
      `SegmentStart(segs, k)`, and the next segment starts right after it. */
  lemma {:induction false} ConcatEmbeds(segs: seq<string>, k: nat)
    requires k < |segs|
    ensures SegmentStart(segs, k + 1) == SegmentStart(segs, k) + |segs[k]|
    ensures SegmentStart(segs, k + 1) <= |Concat(segs)|
    ensures Concat(segs)[SegmentStart(segs, k)..SegmentStart(segs, k + 1)] == segs[k]
  {
    assert segs[..k + 1] == segs[..k] + [segs[k]];
    ConcatAppend(segs[..k], [segs[k]]);
    assert Concat([segs[k]]) == segs[k] + Concat([]);
    assert segs == segs[..k + 1] + segs[k + 1..];
    ConcatAppend(segs[..k + 1], segs[k + 1..]);
  }
}
